=== FILE: README.md ===
# Texture_As_Buffer in Dafny

`Texture_As_Buffer` treats a Direct3D 11 2D texture array as a typed buffer
of shape `[channels, height, width]`. It owns these objects:

- the texture;
- an unordered-access view (UAV) and a shader-resource view (SRV) of the texture;
- a staging texture the CPU can map;
- a packed host buffer `data`.

Its operations are these:

- `init` validates the shape, maps the DXGI format to an element size, and creates the texture and both views.
- `init_staging` creates the staging texture with the texture's description, plus the host buffer.
- `to_cpu` copies the texture into the staging texture, maps it, and copies `height * channels` rows of `width * element_size` bytes into the packed host buffer. The rows lie `RowPitch` bytes apart in the mapping.
- `to_gpu` does the reverse for a caller's buffer.
- Two fill overloads of `to_gpu` build a temporary buffer and push it: `n` bytes each holding a given byte, or `(n + 3) / 4` 32-bit words each holding a given word, where `n = channels*height*width*element_size` is the logical size.
- `release` gives back every object that is held and nulls every pointer.

The project models this struct as a Dafny class.

- Device objects are references: `Texture2D` owns the bytes of its subresource 0, and `View` names its texture.
- What the device answers is a `Device` parameter:
  - which creation calls succeed;
  - the row padding after each row.
- What the context answers is a `Context` parameter: whether `Map` succeeds.
- The mapped memory of a texture holds every array slice as consecutive rows, `rowPitch` bytes apart. The struct relies on this when it maps subresource 0 and walks `height * channels` rows.
- The row loops become imperative methods proved against two specification functions:
  - `Gather` is what `to_cpu` leaves in the host buffer;
  - `Scatter` is what `to_gpu` leaves in the mapping.
- The round trips and pointwise facts are lemmas about those two functions.
- Ownership is tracked with a ghost set `released`, holding every object given back.
  - An object that leaves the handle fields without entering `released` has leaked.
  - `Init` returns, as a ghost, the objects it creates and then drops.

Modules:

| file | module | contents |
|---|---|---|
| optional.dfy | `Optional` | `Option` |
| bytes.dfy | `Bytes` | bytes, 32-bit words, little-endian byte image of a word buffer |
| dxgi_formats.dfy | `DxgiFormats` | the format catalog |
| shape_text.dfy | `ShapeText` | the `print_shape` text, decimal numerals |
| row_pitch.dfy | `RowPitch` | `Gather`, `Scatter` and their lemmas, one-row copy |
| texture_as_buffer.dfy | `Tab` | device objects, row loops, fill buffers, class `TextureAsBuffer` |
| client.dfy | `Client` | call sequences as the tests use them, with what each guarantees |

## Model

| member | source | states |
|---|---|---|
| DxgiFormats.ElementSize | texture_as_buffer.cpp:18-43 | A format has an element size exactly when it is one of the six listed formats; the size is then 1, 2 or 4 bytes. |
| DxgiFormats.ElementSizeIsLaneBytes | texture_as_buffer.cpp:19-36 | Each listed element size is the sum of the lane widths that the format's name spells, divided by 8, and that sum is a whole number of bytes. |
| Bytes.Replicate | texture_as_buffer.cpp:202-204 | `n` copies of a value: length `n`, and every entry is that value. |
| Bytes.WordBytesRoundTrip | texture_as_buffer.cpp:213-217 | Reading back the four little-endian bytes of a word gives the word. |
| Bytes.BytesWordRoundTrip | texture_as_buffer.cpp:213-217 | Splitting the word that four bytes hold gives back those bytes. |
| Bytes.WordImage | texture_as_buffer.cpp:213-217 | A buffer of `m` words occupies `4 * m` bytes when read through a byte pointer. |
| Bytes.WordImageAt | texture_as_buffer.cpp:213-217 | Byte `k` of a word buffer's memory image is byte `k % 4` of word `k / 4`. |
| Bytes.WordFillAt | texture_as_buffer.cpp:213-214 | `(n + 3) / 4` words span at least `n` and fewer than `n + 4` bytes. Each byte `k < n` of the fill is byte `k % 4` of the word. |
| ShapeText.DecimalString | texture_as_buffer.h:36 | The numeral is non-empty and all digits, with no leading zero unless the number is 0. |
| ShapeText.DecimalRoundTrip | texture_as_buffer.h:36 | Reading back the numeral gives the number. |
| ShapeText.DecimalStringInjective | texture_as_buffer.h:36 | Different numbers have different numerals. |
| ShapeText.ShapeString | texture_as_buffer.h:34-37 | The shape text holds only digits and spaces, has at least 5 characters, and starts and ends with a digit. |
| ShapeText.ShapeStringInjective | texture_as_buffer.h:34-37 | The text determines the shape: equal texts mean equal channels, height and width. |
| ShapeText.ShapeStringDetermines | texture_as_buffer.h:34-37 | Every shape whose text equals that of `(c, h, w)` is `(c, h, w)`. |
| ShapeText.ZeroShapeString | texture_as_buffer.h:10-12 | The shape text of zero channels, height and width is "0 0 0". |
| RowPitch.Splice | texture_as_buffer.cpp:151 | One memcpy: the bytes in the copied range come from the row, and every other byte is unchanged. |
| RowPitch.CopyRow | texture_as_buffer.cpp:151 | Copying `n` bytes from a source offset into an array leaves the array as the splice of that row. |
| RowPitch.Gather | texture_as_buffer.cpp:145-151 | The packed image of `rows` rows has `rows * rowBytes` bytes. |
| RowPitch.Scatter | texture_as_buffer.cpp:183-189 | Writing rows into a pitched region keeps the region's length. |
| RowPitch.GatherGrows | texture_as_buffer.cpp:150-151 | One more iteration of the read loop appends that row's `rowBytes` bytes from offset `row * pitch`. |
| RowPitch.ScatterGrows | texture_as_buffer.cpp:188-189 | One more iteration of the write loop splices that row of the host buffer in at `row * pitch`. |
| RowPitch.GatherAt | texture_as_buffer.cpp:145-151 | After the read loop, `host[i*rowBytes + b] == mapped[i*pitch + b]` for every row `i < rows` and byte `b < rowBytes`. |
| RowPitch.ScatterAt | texture_as_buffer.cpp:183-189 | After the write loop, `mapped[i*pitch + b] == host[i*rowBytes + b]` for every row `i < rows` and byte `b < rowBytes`. |
| RowPitch.ScatterKeeps | texture_as_buffer.cpp:183-189 | A mapped byte that lies in no written row's data keeps its value. |
| RowPitch.ScatterKeepsPadding | texture_as_buffer.cpp:183-189 | Padding bytes `rowBytes <= b < pitch` of the written rows are left unchanged. |
| RowPitch.ScatterKeepsBeyond | texture_as_buffer.cpp:183-189 | Bytes of rows at or past `rows` are left unchanged. |
| RowPitch.ScatterNothing | texture_as_buffer.cpp:188-189 | With zero-byte rows the write loop changes nothing. |
| RowPitch.GatherIgnoresPadding | texture_as_buffer.cpp:145-151 | The read loop never reads padding: two regions that agree on the row data give the same host buffer. |
| RowPitch.ScatterThenGather | texture_as_buffer.cpp:129-156 | Writing a packed buffer into the region and then reading it back gives the buffer byte for byte (`to_gpu(d)`, then `to_cpu()` returns `d`). |
| RowPitch.GatherThenScatter | texture_as_buffer.cpp:183-196 | Writing back what was read leaves the whole region unchanged, padding included. |
| RowPitch.PackedSize | texture_as_buffer.cpp:119 | The host buffer of `channels*height*width*element_size` bytes is exactly `height*channels` rows of `width*element_size` bytes. |
| RowPitch.ExtentWithin | texture_as_buffer.cpp:139 | A region of `rows` whole rows of pitch `pitch` holds the last row's data. |
| RowPitch.ElementLocation | test.cpp:238 | Byte `e` of element `(c, h, w)` in the packed buffer, at `(c*height*width + h*width + w)*element_size + e`, is byte `w*element_size + e` of row `c*height + h` of the mapping. |
| Tab.CreateTexture2D | texture_as_buffer.cpp:57-63 | The device returns null exactly when it refuses; otherwise a fresh texture with the requested description and layout. |
| Tab.CreateView | texture_as_buffer.cpp:72-92 | The device returns null exactly when it refuses; otherwise a fresh view of the texture. |
| Tab.CopyResource | texture_as_buffer.cpp:130 | The destination's memory becomes the source's memory. |
| Tab.CopyRowsOut | texture_as_buffer.cpp:145-151 | The row loop of `to_cpu` leaves `Gather` of the mapping in the host buffer. |
| Tab.CopyRowsIn | texture_as_buffer.cpp:183-189 | The row loop of `to_gpu` leaves `Scatter` of the first `rows*rowBytes` host bytes over the old mapping. |
| Tab.ByteFill | texture_as_buffer.cpp:202-204 | The byte fill's temporary buffer is `n` copies of the value. |
| Tab.WordFill | texture_as_buffer.cpp:213-215 | The word fill's buffer is the byte image of `(n + 3) / 4` copies of the word. It has at least `n` bytes. |
| Tab.TextureAsBuffer.PrintShape | texture_as_buffer.h:34-37 | The shape text of the current channels, height and width. It reads only those three fields and changes nothing, and the text determines them: any shape printing the same text is the current one. |
| Tab.TextureAsBuffer.constructor | texture_as_buffer.h:10-17 | A new instance has all shape fields 0 and every handle and `data` null. Nothing has been given back, and `print_shape` is "0 0 0". |
| Tab.TextureAsBuffer.Init | texture_as_buffer.cpp:4-96 | The format defaults to R8_UNORM, as declared at texture_as_buffer.h:20. A zero `channels*height*width` changes no shape field. An unknown format has already written the three shape fields but not `element_size`. Texture, UAV and SRV are non-null exactly when every step succeeds; the texture and its memory are then fresh, and the texture has the requested description and `rowPitch = width*element_size + padding`. Channels, height and width are positive whenever a texture is held. The ghost outputs `lostTexture` and `lostUav` are the objects created and then dropped. `lostTexture` is non-null exactly on a UAV or SRV failure, and it is then the fresh texture of the requested description. `lostUav` is non-null exactly on an SRV failure, and it is then a fresh view of `lostTexture`. Neither is held. The staging texture and `data` are never touched. |
| Tab.TextureAsBuffer.CreateTextureAndViews | texture_as_buffer.cpp:45-93 | The texture, then the UAV, then the SRV. All three handles are set exactly when every creation succeeds. The texture and its memory are fresh, and the texture has the recorded shape and `rowPitch = width*element_size + padding`. The outcome is `CreationOutcome(device)`: the texture is lost exactly on a UAV or SRV failure, and a fresh UAV of it exactly on an SRV failure; neither is held. |
| Tab.TextureAsBuffer.CreateViews | texture_as_buffer.cpp:65-93 | A UAV failure drops the texture (`lostTexture == t`), and an SRV failure drops the texture and a fresh UAV of it (`lostUav`); neither is held. Otherwise the handles hold the texture and two fresh views. |
| Tab.TextureAsBuffer.Abandon | texture_as_buffer.cpp:8-10 | The failure paths of `init`: texture, UAV and SRV all become null, and nothing is given back. |
| Tab.TextureAsBuffer.InitStaging | texture_as_buffer.cpp:98-120 | With no texture, or when creation fails: staging is null and `data` is unchanged. Otherwise: a fresh staging texture, with fresh memory and with the texture's description and pitch, and a fresh host buffer of exactly `channels*height*width*element_size` bytes. |
| Tab.TextureAsBuffer.ToCpu | texture_as_buffer.cpp:122-157 | Without staging: null, and the host buffer is unchanged. Otherwise the staging texture becomes a copy of the texture. If Map fails: null, host buffer unchanged. Otherwise it returns `data`, holding `Gather` of the texture's memory. |
| Tab.TextureAsBuffer.ToGpu | texture_as_buffer.cpp:159-197 | Without staging, with a null source, or if Map fails, device memory is unchanged. Otherwise the staging memory is `Scatter` of the logical bytes over its old contents, and the texture then equals the staging texture. |
| Tab.TextureAsBuffer.ToGpuFillByte | texture_as_buffer.cpp:199-208 | On success the texture holds `n` copies of the byte scattered over its rows, as memset would leave a packed buffer. On failure nothing changes. |
| Tab.TextureAsBuffer.ToGpuFillWord | texture_as_buffer.cpp:210-219 | On success the texture holds the first `n` bytes of `(n + 3) / 4` copies of the word, scattered over its rows. On failure nothing changes. |
| Tab.TextureAsBuffer.Release | texture_as_buffer.cpp:221-239 | All five pointers become null. Exactly the objects that were held are added to `released`. The shape fields are kept. |
| Tab.TextureAsBuffer.Destroy | texture_as_buffer.h:40-43 | The destructor releases: every handle and `data` is null, and everything held is given back. |
| Client.Setup | test.cpp:20-21 | `init` then `init_staging` on a new instance, the device answering the staging creation separately. The texture exists exactly when `init` created everything. Staging exists exactly when, in addition, the staging creation succeeded; otherwise `data` stays null. What exists is fresh, memories included. With staging, the host buffer holds `c*h*w*element_size` bytes. |
| Client.SetupThenFetch | test.cpp:20-21 | Set up, then `to_cpu()` (as at test.cpp:193): a buffer comes back exactly when both inits and Map succeed, and it is `data`, holding `Gather` of the new texture's memory. The texture, the staging texture, their memories and `data` are fresh whenever they are non-null. |
| Client.InitStagingTwice | texture_as_buffer.cpp:113-119 | A second `init_staging` leaves the first staging texture and host buffer neither held nor given back: two objects leak. The new staging texture, its memory and `data` are fresh. |
| Client.PushThenFetch | texture_as_buffer.cpp:159-197 | `to_gpu(src)` then `to_cpu()` returns the first `n` bytes of `src`, whatever the row padding. |
| Client.FillThenFetch | texture_as_buffer.cpp:199-208 | The byte fill then `to_cpu()` returns `n` copies of the byte (the "same as memset" promise of texture_as_buffer.h:25-26). |
| Client.FillWordThenFetch | texture_as_buffer.cpp:210-219 | The word fill then `to_cpu()` returns `n` bytes. Byte `k` is byte `k % 4` of the little-endian word, also when `n` is not a multiple of 4. |
| Client.FetchThenPush | texture_as_buffer.cpp:122-197 | `to_cpu()`, then `to_gpu` of the returned buffer, leaves the texture's memory unchanged. |
| Client.FetchElementByte | test.cpp:238 | After `to_cpu()`, byte `e` of element `(c, h, w)` at the tests' index is the texture's byte at row `c*height + h`, offset `w*element_size + e`. |
| Client.ReleaseTwice | texture_as_buffer.cpp:221-239 | `release` is idempotent: the second call gives back nothing more and every handle stays null. |
| Client.ShapeAfterRelease | texture_as_buffer.h:34-37 | After `release`, every handle and `data` are null and the instance is still valid, and `print_shape` still reports the old shape. |

## Left out

- Integer widths: `size_t` overflow of the shape products, the `(UINT)` casts in the texture description, and the `int` loop counters of the fill overloads are not modelled. All integers are unbounded. This agrees with the source only while the logical size `n = channels*height*width*element_size` stays below 2^31 bytes. D3D11 caps each resource at 2048 MB at most, so no instance holding a staging texture reaches 2^31 bytes. The byte fill's `int` counter (texture_as_buffer.cpp:203) can still overflow, but only through shape fields that a refused `init` has written (texture_as_buffer.cpp:14-16, 57-62). The fill loops run before `to_gpu` checks for a staging texture, on whatever shape fields are set, including those a failed `init` has already written (texture_as_buffer.cpp:14-16); the model's fills do the same.
- Console output (`std::cout`) on every failure path and after a successful `init` is left out.
- Device semantics are left out.
  - `Flush` is a no-op.
  - `CopyResource` is a whole-array copy between textures of the same layout.
  - The hardware's choice of row pitch is the `Device.rowPadding` parameter.
  - The driver's laying out of every array slice after subresource 0 is assumed, not modelled.
- `to_gpu` maps with `D3D11_MAP_READ` and still writes through the mapping (texture_as_buffer.cpp:177, 189). The model treats the mapping as writable, as the source evidently intends.
- Texture descriptor fields other than width, height, array size and format are left out: mip levels, sample count, usage, bind and CPU-access flags.
- Per-lane encodings (float, half, unorm) of texel bytes are left out. The transfer layer depends only on the element size.
- The `delete[]` of the fill overloads' temporary buffers is not modelled, because no field refers to those buffers.
- Leaks are shown through `Init`'s ghost outputs `lostTexture` and `lostUav` and the `released` set, not through an allocator.
- `Tab.TextureAsBuffer.ToCpu`, `ToGpu` and the fill overloads require `Coherent()`: a staging texture, if any, was made from the current texture and its host buffer is sized for the current shape. After `init` is re-run on an instance that already has a staging texture, there are two cases. If the re-run fails, `p_texture` is null and `CopyResource` is called with a null resource (texture_as_buffer.cpp:130, 195): `Coherent()` excludes that case, and it is not modelled. If it succeeds, the staging texture still fits exactly when the new texture has the same description and row pitch and the shape's logical size is unchanged; the caller can then establish `Coherent()` and the copy is modelled. Any other layout is excluded.
- Tab.TextureAsBuffer.Release: its contract does not mention `print_shape`; `Client.ShapeAfterRelease` states it.
- d3d11_helper.cpp, d3d11_helper.h and main.cpp are not part of this model.
- test.cpp is not part of this model, except for its indexing of the packed buffer and its setup and first fetch at test.cpp:20-21 and 193 (`Client.Setup`, `Client.SetupThenFetch`). That includes its shaders and its floating-point error checks.

=== FILE: bytes.dfy ===
/**
 * Host memory as the transfer layer sees it: bytes, 32-bit words and the
 * byte image of a word buffer on a little-endian host.
 */
module Bytes {
  newtype byte = b: int | 0 <= b < 0x100
  newtype word = w: int | 0 <= w < 0x1_0000_0000

  /** `n` copies of `v`. */
  function Replicate<T>(v: T, n: nat): (r: seq<T>)
    ensures |r| == n && forall k | 0 <= k < n :: r[k] == v
  {
    seq(n, _ => v)
  }

  /** Byte `k` of `v` in memory, byte 0 being the least significant one. */
  function WordByte(v: word, k: nat): byte
    requires k < 4
  {
    if k == 0 then (v % 0x100) as byte
    else if k == 1 then (v / 0x100 % 0x100) as byte
    else if k == 2 then (v / 0x100 / 0x100 % 0x100) as byte
    else (v / 0x100 / 0x100 / 0x100) as byte
  }

  /** The four bytes a word occupies in memory. */
  function WordBytes(v: word): seq<byte>
  {
    [WordByte(v, 0), WordByte(v, 1), WordByte(v, 2), WordByte(v, 3)]
  }

  /** The word that four bytes in memory hold. */
  function WordFromBytes(bs: seq<byte>): word
    requires |bs| == 4
  {
    (bs[0] as int + 0x100 * bs[1] as int + 0x1_0000 * bs[2] as int + 0x100_0000 * bs[3] as int) as word
  }

  lemma WordBytesRoundTrip(v: word)
    ensures WordFromBytes(WordBytes(v)) == v
  {
    var x := v as int;
    var q1, q2 := x / 0x100, x / 0x100 / 0x100;
    assert x == x % 0x100 + 0x100 * q1;
    assert q1 == q1 % 0x100 + 0x100 * q2;
    assert q2 == q2 % 0x100 + 0x100 * (q2 / 0x100);
  }

  lemma BytesWordRoundTrip(bs: seq<byte>)
    requires |bs| == 4
    ensures WordBytes(WordFromBytes(bs)) == bs
  {
    var b0, b1, b2, b3 := bs[0] as int, bs[1] as int, bs[2] as int, bs[3] as int;
    var hi2 := b2 + 0x100 * b3;
    var hi1 := b1 + 0x100 * hi2;
    var x := b0 + 0x100 * hi1;
    assert WordFromBytes(bs) as int == x;
    assert x % 0x100 == b0 && x / 0x100 == hi1;
    assert hi1 % 0x100 == b1 && hi1 / 0x100 == hi2;
    assert hi2 % 0x100 == b2 && hi2 / 0x100 == b3;
  }

  /** The bytes a buffer of words occupies in memory, read through a byte pointer. */
  function WordImage(words: seq<word>): (r: seq<byte>)
    ensures |r| == 4 * |words|
  {
    if words == [] then [] else WordBytes(words[0]) + WordImage(words[1..])
  }

  lemma {:induction false} WordImageAt(words: seq<word>, k: nat)
    requires k < 4 * |words|
    ensures WordImage(words)[k] == WordByte(words[k / 4], k % 4)
  {
    if k >= 4 {
      WordImageAt(words[1..], k - 4);
    }
  }

  /**
   * A buffer of ceil(n / 4) copies of `v` spans at least `n` bytes and fewer
   * than `n + 4`, and its byte `k` is byte `k % 4` of `v`.
   */
  lemma WordFillAt(v: word, n: nat, k: nat)
    requires k < n
    ensures n <= 4 * ((n + 3) / 4) < n + 4
    ensures WordImage(Replicate(v, (n + 3) / 4))[k] == WordByte(v, k % 4)
  {
    WordImageAt(Replicate(v, (n + 3) / 4), k);
  }
}

=== FILE: client.dfy ===
/**
 * How the tests drive a Texture_As_Buffer: init then init_staging, pushes and
 * fetches through the staging texture, and release. Each method is one such
 * sequence of calls, and its contract is what the sequence guarantees.
 */
module Client {
  import opened Bytes
  import opened DxgiFormats
  import opened RowPitch
  import opened Tab
  import ShapeText

  /**
   * A new instance set up as the tests do: init with a shape and format, then
   * init_staging, whose creation of the staging texture the device answers
   * separately. The texture and its views exist exactly when init created
   * everything; the staging texture and host buffer exist exactly when
   * init_staging then succeeded too, and the host buffer holds the packed shape.
   * Only `stagingDevice.createTexture2D` matters: the staging texture copies
   * the texture's row pitch, so the staging device's padding is never read.
   */
  method Setup(device: Device, stagingDevice: Device, c: nat, h: nat, w: nat, format: DxgiFormat := R8_UNORM)
    returns (t: TextureAsBuffer)
    ensures fresh(t) && t.Valid() && t.Coherent()
    ensures t.texture != null <==> InitOutcomeOf(device, c, h, w, format) == Created
    ensures t.textureStaging != null <==> InitOutcomeOf(device, c, h, w, format) == Created && stagingDevice.createTexture2D
    ensures t.textureStaging == null ==> t.data == null
    ensures t.texture != null ==> fresh(t.texture) && fresh(t.texture.memory)
    ensures t.textureStaging != null ==>
      && fresh(t.textureStaging) && fresh(t.textureStaging.memory) && fresh(t.data)
      && t.channels == c && t.height == h && t.width == w
      && t.data.Length == c * h * w * ElementSize(format).value
  {
    t := new TextureAsBuffer();
    ghost var lostTexture, lostUav := t.Init(device, c, h, w, format);
    t.InitStaging(stagingDevice);
  }

  /**
   * The tests' first fetch on a new instance: set up, then to_cpu. A buffer
   * comes back exactly when both inits succeeded and Map succeeds, and it holds
   * the packed rows of the new texture.
   */
  method SetupThenFetch(device: Device, stagingDevice: Device, context: Context, c: nat, h: nat, w: nat,
                        format: DxgiFormat := R8_UNORM)
    returns (t: TextureAsBuffer, r: array?<byte>)
    ensures r != null <==>
      InitOutcomeOf(device, c, h, w, format) == Created && stagingDevice.createTexture2D && context.mapSucceeds
    ensures fresh(t) && t.Valid() && t.Coherent()
    ensures t.texture != null ==> fresh(t.texture) && fresh(t.texture.memory)
    ensures t.textureStaging != null ==> fresh(t.textureStaging) && fresh(t.textureStaging.memory) && fresh(t.data)
    ensures r != null ==>
      && t.texture != null && t.textureStaging != null && r == t.data
      && r[..] == Gather(t.texture.memory[..], t.Rows(), t.RowBytes(), t.texture.rowPitch)
  {
    t := Setup(device, stagingDevice, c, h, w, format);
    r := t.ToCpu(context);
  }

  /**
   * init_staging called twice on a texture: the first staging texture and
   * host buffer are neither held any more nor given back.
   */
  method InitStagingTwice(t: TextureAsBuffer, device: Device) returns (ghost leaked: set<object>)
    requires t.Valid() && t.texture != null && device.createTexture2D
    modifies t`textureStaging, t`data
    ensures t.Valid() && t.Coherent() && t.textureStaging != null
    ensures fresh(t.textureStaging) && fresh(t.textureStaging.memory) && fresh(t.data)
    ensures |leaked| == 2 && forall o | o in leaked :: fresh(o) && o !in t.Held() && o !in t.released
  {
    t.InitStaging(device);
    ghost var staging: object, data: object := t.textureStaging, t.data;
    assert staging != data;
    leaked := {staging, data};
    t.InitStaging(device);
    assert staging !in t.Held() && data !in t.Held();
  }

  /** to_gpu(src) then to_cpu() returns the logical bytes of `src`, whatever the row padding. */
  method PushThenFetch(t: TextureAsBuffer, context: Context, src: array<byte>) returns (r: array?<byte>)
    requires t.Valid() && t.Coherent() && t.textureStaging != null && context.mapSucceeds
    requires t.LogicalSize() <= src.Length && src !in t.DeviceMemory()
    modifies t.DeviceMemory(), t.data
    ensures r != null && r[..] == old(src[..t.LogicalSize()])
  {
    ghost var input := src[..t.LogicalSize()];
    t.ToGpu(context, src);
    r := t.ToCpu(context);
    ScatterThenGather(input, old(t.textureStaging.memory[..]), t.Rows(), t.RowBytes(), t.textureStaging.rowPitch);
  }

  /** The byte fill followed by to_cpu() gives back the logical size in copies of the byte. */
  method FillThenFetch(t: TextureAsBuffer, context: Context, v: byte) returns (r: array?<byte>)
    requires t.Valid() && t.Coherent() && t.textureStaging != null && context.mapSucceeds
    modifies t.DeviceMemory(), t.data
    ensures r != null && r[..] == Replicate(v, t.LogicalSize())
  {
    t.ToGpuFillByte(context, v);
    r := t.ToCpu(context);
    ScatterThenGather(Replicate(v, t.LogicalSize()), old(t.textureStaging.memory[..]), t.Rows(), t.RowBytes(), t.textureStaging.rowPitch);
  }

  /**
   * The word fill followed by to_cpu(): byte k of the result is byte k % 4 of
   * the little-endian word, also when the logical size is not a multiple of 4.
   */
  method FillWordThenFetch(t: TextureAsBuffer, context: Context, v: word) returns (r: array?<byte>)
    requires t.Valid() && t.Coherent() && t.textureStaging != null && context.mapSucceeds
    modifies t.DeviceMemory(), t.data
    ensures r != null && r.Length == t.LogicalSize()
    ensures forall k | 0 <= k < r.Length :: r[k] == WordByte(v, k % 4)
  {
    ghost var n, staged, pitch := t.LogicalSize(), t.textureStaging.memory[..], t.textureStaging.rowPitch;
    ghost var rows, rowBytes := t.Rows(), t.RowBytes();
    assert n == rows * rowBytes && Extent(rows, rowBytes, pitch) <= |staged|;
    t.ToGpuFillWord(context, v);
    ghost var fill := WordImage(Replicate(v, (n + 3) / 4))[..n];
    ghost var pushed := Scatter(fill, staged, rows, rowBytes, pitch);
    assert t.texture.memory[..] == pushed;
    r := t.ToCpu(context);
    assert r[..] == Gather(pushed, rows, rowBytes, pitch);
    ScatterThenGather(fill, staged, rows, rowBytes, pitch);
    forall k | 0 <= k < r.Length
      ensures r[k] == WordByte(v, k % 4)
    {
      WordFillAt(v, n, k);
      assert r[k] == r[..][k];
    }
  }

  /**
   * to_cpu() then to_gpu() of the buffer it returned leaves the texture as it
   * was, padding bytes included.
   */
  method FetchThenPush(t: TextureAsBuffer, context: Context)
    requires t.Valid() && t.Coherent() && t.textureStaging != null && context.mapSucceeds
    modifies t.DeviceMemory(), t.data
    ensures t.texture.memory[..] == old(t.texture.memory[..])
  {
    ghost var before := t.texture.memory[..];
    ghost var pitch := t.textureStaging.rowPitch;
    var r := t.ToCpu(context);
    ghost var fetched := r[..];
    assert fetched == Gather(before, t.Rows(), t.RowBytes(), pitch);
    assert t.textureStaging.memory[..] == before;
    assert fetched == r[..t.LogicalSize()];
    t.ToGpu(context, r);
    assert t.texture.memory[..] == Scatter(fetched, before, t.Rows(), t.RowBytes(), pitch);
    GatherThenScatter(before, t.Rows(), t.RowBytes(), pitch);
  }

  /**
   * The tests' indexing of the fetched buffer: byte e of element (c, h, w)
   * sits at (c*height*width + h*width + w)*elementSize + e, and it is byte
   * w*elementSize + e of row c*height + h of the texture.
   */
  method FetchElementByte(t: TextureAsBuffer, context: Context, c: nat, h: nat, w: nat, e: nat)
    returns (x: byte)
    requires t.Valid() && t.Coherent() && t.textureStaging != null && context.mapSucceeds
    requires c < t.channels && h < t.height && w < t.width && e < t.elementSize
    modifies t.StagingMemory(), t.data
    ensures PitchedIndex(t.height, t.texture.rowPitch, t.elementSize, c, h, w, e) < t.texture.memory.Length
    ensures x == t.texture.memory[PitchedIndex(t.height, t.texture.rowPitch, t.elementSize, c, h, w, e)]
  {
    var r := t.ToCpu(context);
    ElementLocation(t.texture.memory[..], t.channels, t.height, t.width, t.elementSize, t.texture.rowPitch, c, h, w, e);
    x := r[PackedIndex(t.height, t.width, t.elementSize, c, h, w, e)];
  }

  /**
   * release twice: the second call gives back nothing more, and every handle
   * stays null.
   */
  method ReleaseTwice(t: TextureAsBuffer)
    requires t.Valid()
    modifies t`texture, t`textureUav, t`textureSrv, t`textureStaging, t`data, t`released
    ensures t.texture == null && t.textureUav == null && t.textureSrv == null
    ensures t.textureStaging == null && t.data == null
    ensures t.released == old(t.released) + old(t.Held())
  {
    t.Release();
    ghost var once := t.released;
    t.Release();
    assert t.released == once;
  }

  /** release keeps the shape fields, so print_shape still reports the old shape. */
  method ShapeAfterRelease(t: TextureAsBuffer) returns (s: string)
    requires t.Valid()
    modifies t`texture, t`textureUav, t`textureSrv, t`textureStaging, t`data, t`released
    ensures t.Valid() && t.Coherent()
    ensures t.texture == null && t.textureUav == null && t.textureSrv == null
    ensures t.textureStaging == null && t.data == null
    ensures s == old(t.PrintShape()) == ShapeText.ShapeString(old(t.channels), old(t.height), old(t.width))
  {
    t.Release();
    s := t.PrintShape();
  }
}

=== FILE: dxgi_formats.dfy ===
/**
 * The format catalog: which DXGI formats the transfer layer accepts and how
 * many bytes one element of each occupies.
 */
module DxgiFormats {
  import opened Optional

  /** A DXGI_FORMAT code; the enumeration is open, so any code can be passed. */
  type DxgiFormat = nat

  // Codes as numbered in dxgiformat.h.
  const R10G10B10A2_UNORM: DxgiFormat := 24
  const R8G8B8A8_UNORM: DxgiFormat := 28
  const R16G16_FLOAT: DxgiFormat := 34
  const R32_FLOAT: DxgiFormat := 41
  const R16_FLOAT: DxgiFormat := 54
  const R8_UNORM: DxgiFormat := 61

  const SUPPORTED: set<DxgiFormat> :=
    {R8_UNORM, R8G8B8A8_UNORM, R10G10B10A2_UNORM, R16_FLOAT, R16G16_FLOAT, R32_FLOAT}

  /** Bytes per element, or None for a format the transfer layer rejects. */
  function ElementSize(format: DxgiFormat): (r: Option<nat>)
    ensures r.Some? <==> format in SUPPORTED
    ensures r.Some? ==> r.value in {1, 2, 4}
  {
    if format == R8_UNORM then Some(1)
    else if format == R8G8B8A8_UNORM then Some(4)
    else if format == R10G10B10A2_UNORM then Some(4)
    else if format == R16_FLOAT then Some(2)
    else if format == R16G16_FLOAT then Some(4)
    else if format == R32_FLOAT then Some(4)
    else None
  }

  /** The bit widths of the lanes of one element, as the format's name spells them. */
  function LaneBits(format: DxgiFormat): seq<nat>
  {
    if format == R8_UNORM then [8]
    else if format == R8G8B8A8_UNORM then [8, 8, 8, 8]
    else if format == R10G10B10A2_UNORM then [10, 10, 10, 2]
    else if format == R16_FLOAT then [16]
    else if format == R16G16_FLOAT then [16, 16]
    else if format == R32_FLOAT then [32]
    else []
  }

  function SumBits(lanes: seq<nat>): nat
  {
    if lanes == [] then 0 else lanes[0] + SumBits(lanes[1..])
  }

  /** The catalog's byte width is exactly the lanes' bits packed into whole bytes. */
  lemma ElementSizeIsLaneBytes(format: DxgiFormat)
    ensures ElementSize(format).Some? ==>
      SumBits(LaneBits(format)) % 8 == 0 && ElementSize(format).value == SumBits(LaneBits(format)) / 8
  {
    var lanes := LaneBits(format);
    if |lanes| == 4 {
      assert SumBits(lanes) == lanes[0] + lanes[1] + lanes[2] + lanes[3] + SumBits(lanes[4..]);
    } else if |lanes| == 2 {
      assert SumBits(lanes) == lanes[0] + lanes[1] + SumBits(lanes[2..]);
    }
  }
}

=== FILE: optional.dfy ===
/** An optional value, for lookups that may find nothing. */
module Optional {
  datatype Option<T> = None | Some(value: T)
}

=== FILE: row_pitch.dfy ===
/**
 * Row-pitch correction: moving `rows` rows of `rowBytes` bytes between a
 * tightly packed host buffer and a mapped region whose rows lie `pitch`
 * bytes apart (pitch >= rowBytes; the bytes in between are padding).
 */
module RowPitch {
  import opened Bytes

  /** How far into a pitched region its last row ends. */
  function Extent(rows: nat, rowBytes: nat, pitch: nat): nat
  {
    if rows == 0 then 0 else (rows - 1) * pitch + rowBytes
  }

  lemma MulMonotone(a: nat, b: nat, m: nat)
    requires a <= b
    ensures a * m <= b * m
  {
  }

  /** Byte `b` of row `i` lies before row `j` starts, when i < j and b < pitch. */
  lemma RowBefore(i: nat, j: nat, b: nat, pitch: nat)
    requires i < j && b < pitch
    ensures i * pitch + b < j * pitch
  {
    MulMonotone(i + 1, j, pitch);
  }

  lemma ExtentMonotone(r: nat, rows: nat, rowBytes: nat, pitch: nat)
    requires r <= rows && rowBytes <= pitch
    ensures Extent(r, rowBytes, pitch) <= Extent(rows, rowBytes, pitch)
  {
    if 0 < r {
      MulMonotone(r - 1, rows - 1, pitch);
    }
  }

  /** A region of whole rows holds the extent. */
  lemma ExtentWithin(rows: nat, rowBytes: nat, pitch: nat)
    requires rowBytes <= pitch
    ensures Extent(rows, rowBytes, pitch) <= rows * pitch
  {
    if 0 < rows {
      assert rows * pitch == (rows - 1) * pitch + pitch;
    }
  }

  /** `k` below rows * w splits into a row below `rows` and a byte below `w`. */
  lemma Decompose(k: nat, rows: nat, w: nat) returns (i: nat, b: nat)
    requires k < rows * w
    ensures i < rows && b < w && k == i * w + b
  {
    i, b := k / w, k % w;
    if rows <= i {
      MulMonotone(rows, i, w);
      assert false;
    }
  }

  /** Offset `k` is byte `b < pitch` of row `i` of a region whose rows lie `pitch` apart. */
  lemma RowOf(k: nat, pitch: nat) returns (i: nat, b: nat)
    requires 0 < pitch
    ensures b < pitch && k == i * pitch + b
  {
    i, b := k / pitch, k % pitch;
  }

  /** `s` with `row` written over it at `off`: what one memcpy does. */
  function Splice(s: seq<byte>, off: nat, row: seq<byte>): (r: seq<byte>)
    requires off + |row| <= |s|
    ensures |r| == |s|
    ensures forall k | 0 <= k < |s| :: r[k] == if off <= k < off + |row| then row[k - off] else s[k]
  {
    s[..off] + row + s[off + |row|..]
  }

  /**
   * The packed image of the first `rows` rows of a pitched region: what the
   * row loop of to_cpu leaves in the host buffer.
   */
  function Gather(mapped: seq<byte>, rows: nat, rowBytes: nat, pitch: nat): (r: seq<byte>)
    requires rowBytes <= pitch && Extent(rows, rowBytes, pitch) <= |mapped|
    ensures |r| == rows * rowBytes
    decreases rows
  {
    if rows == 0 then []
    else
      ExtentMonotone(rows - 1, rows, rowBytes, pitch);
      Gather(mapped, rows - 1, rowBytes, pitch) + mapped[(rows - 1) * pitch .. (rows - 1) * pitch + rowBytes]
  }

  /**
   * A pitched region with the rows of a packed host buffer written over it:
   * what the row loop of to_gpu leaves in the mapped memory.
   */
  function Scatter(host: seq<byte>, mapped: seq<byte>, rows: nat, rowBytes: nat, pitch: nat): (r: seq<byte>)
    requires rowBytes <= pitch && |host| == rows * rowBytes && Extent(rows, rowBytes, pitch) <= |mapped|
    ensures |r| == |mapped|
    decreases rows
  {
    if rows == 0 then mapped
    else
      var done := (rows - 1) * rowBytes;
      ExtentMonotone(rows - 1, rows, rowBytes, pitch);
      Splice(Scatter(host[..done], mapped, rows - 1, rowBytes, pitch), (rows - 1) * pitch, host[done..])
  }

  /** Reading one more row appends that row's data. */
  lemma GatherGrows(mapped: seq<byte>, r: nat, rowBytes: nat, pitch: nat)
    requires rowBytes <= pitch && Extent(r + 1, rowBytes, pitch) <= |mapped|
    ensures Extent(r, rowBytes, pitch) <= |mapped| && r * pitch + rowBytes <= |mapped|
    ensures Gather(mapped, r + 1, rowBytes, pitch) == Gather(mapped, r, rowBytes, pitch) + mapped[r * pitch .. r * pitch + rowBytes]
  {
    ExtentMonotone(r, r + 1, rowBytes, pitch);
  }

  /** Writing one more row splices that row of the host buffer into the region. */
  lemma ScatterGrows(host: seq<byte>, mapped: seq<byte>, r: nat, rowBytes: nat, pitch: nat)
    requires rowBytes <= pitch && (r + 1) * rowBytes <= |host| && Extent(r + 1, rowBytes, pitch) <= |mapped|
    ensures r * rowBytes + rowBytes == (r + 1) * rowBytes
    ensures Extent(r, rowBytes, pitch) <= |mapped| && r * pitch + rowBytes <= |mapped|
    ensures Scatter(host[..(r + 1) * rowBytes], mapped, r + 1, rowBytes, pitch)
         == Splice(Scatter(host[..r * rowBytes], mapped, r, rowBytes, pitch), r * pitch, host[r * rowBytes .. r * rowBytes + rowBytes])
  {
    ExtentMonotone(r, r + 1, rowBytes, pitch);
    Distrib(r, 1, rowBytes);
    var h := host[..(r + 1) * rowBytes];
    assert h[..r * rowBytes] == host[..r * rowBytes];
    assert h[r * rowBytes..] == host[r * rowBytes .. r * rowBytes + rowBytes];
  }

  /** The part of a spliced sequence up to the end of the splice. */
  lemma SplicePrefix(s: seq<byte>, off: nat, row: seq<byte>)
    requires off + |row| <= |s|
    ensures Splice(s, off, row)[..off + |row|] == s[..off] + row
  {
  }

  /** A packed [channels, height, width] buffer is height * channels rows of width * elementSize bytes. */
  lemma PackedSize(channels: nat, height: nat, width: nat, elementSize: nat)
    ensures channels * height * width * elementSize == (height * channels) * (width * elementSize)
  {
    Assoc(channels * height, width, elementSize);
  }

  /** Unfolds Gather by one row at byte `k`. */
  lemma GatherStep(mapped: seq<byte>, rows: nat, rowBytes: nat, pitch: nat, k: nat)
    requires rowBytes <= pitch && Extent(rows, rowBytes, pitch) <= |mapped|
    requires 0 < rows && k < rows * rowBytes
    ensures 0 <= (rows - 1) * rowBytes && 0 <= (rows - 1) * pitch
    ensures (rows - 1) * rowBytes + rowBytes == rows * rowBytes
    ensures Extent(rows - 1, rowBytes, pitch) <= |mapped| && (rows - 1) * pitch + rowBytes <= |mapped|
    ensures Gather(mapped, rows, rowBytes, pitch)[k]
         == if k < (rows - 1) * rowBytes then Gather(mapped, rows - 1, rowBytes, pitch)[k]
            else mapped[(rows - 1) * pitch + (k - (rows - 1) * rowBytes)]
  {
    LastRow(rows, rowBytes, pitch);
    ExtentMonotone(rows - 1, rows, rowBytes, pitch);
  }

  /** Unfolds Scatter by one row at byte `k`. */
  lemma ScatterStep(host: seq<byte>, mapped: seq<byte>, rows: nat, rowBytes: nat, pitch: nat, k: nat)
    requires rowBytes <= pitch && |host| == rows * rowBytes && Extent(rows, rowBytes, pitch) <= |mapped|
    requires 0 < rows && k < |mapped|
    ensures 0 <= (rows - 1) * rowBytes && 0 <= (rows - 1) * pitch
    ensures (rows - 1) * rowBytes + rowBytes == |host| && Extent(rows - 1, rowBytes, pitch) <= |mapped|
    ensures Scatter(host, mapped, rows, rowBytes, pitch)[k]
         == if (rows - 1) * pitch <= k < (rows - 1) * pitch + rowBytes then host[(rows - 1) * rowBytes + (k - (rows - 1) * pitch)]
            else Scatter(host[..(rows - 1) * rowBytes], mapped, rows - 1, rowBytes, pitch)[k]
  {
    LastRow(rows, rowBytes, pitch);
    ExtentMonotone(rows - 1, rows, rowBytes, pitch);
  }

  /** The last of `rows` rows ends where the packed buffer and the extent end. */
  lemma LastRow(rows: nat, rowBytes: nat, pitch: nat)
    requires 0 < rows
    ensures 0 <= (rows - 1) * rowBytes && 0 <= (rows - 1) * pitch
    ensures (rows - 1) * rowBytes + rowBytes == rows * rowBytes
    ensures (rows - 1) * pitch + rowBytes == Extent(rows, rowBytes, pitch)
  {
    Distrib(rows - 1, 1, rowBytes);
  }

  /** Byte `b` of row `i` lies inside the packed buffer and inside the extent of the region. */
  lemma RowInside(i: nat, rows: nat, b: nat, rowBytes: nat, pitch: nat)
    requires i < rows && b < rowBytes <= pitch
    ensures 0 <= i * pitch && 0 <= i * rowBytes
    ensures i * rowBytes + b < rows * rowBytes
    ensures i * pitch + b < Extent(rows, rowBytes, pitch)
  {
    MulMonotone(i, rows - 1, pitch);
    RowBefore(i, rows, b, rowBytes);
  }

  /** Byte `b` of row `i < r` lies before row `r` and inside a region of extent Extent(r + 1). */
  lemma EarlierRow(i: nat, r: nat, b: nat, rowBytes: nat, pitch: nat)
    requires i < r && b < rowBytes <= pitch
    ensures i * pitch + b < r * pitch
    ensures i * rowBytes + b < r * rowBytes
  {
    RowBefore(i, r, b, pitch);
    RowBefore(i, r, b, rowBytes);
  }

  /** Offset `k` falls in the data (not the padding) of row `r`. */
  predicate InRow(k: nat, r: nat, rowBytes: nat, pitch: nat)
  {
    r * pitch <= k < r * pitch + rowBytes
  }

  /** A byte `b < pitch` of row `i` that is padding or another row misses the data of row `r`. */
  lemma OutsideRow(i: nat, r: nat, b: nat, rowBytes: nat, pitch: nat)
    requires rowBytes <= pitch && b < pitch
    requires i != r || rowBytes <= b
    ensures !InRow(i * pitch + b, r, rowBytes, pitch)
  {
    if i < r {
      RowBefore(i, r, b, pitch);
    } else if r < i {
      MulMonotone(r + 1, i, pitch);
    }
  }

  /** Host byte `b` of row `i` comes from byte `b` of row `i` of the region. */
  lemma {:induction false} GatherAt(mapped: seq<byte>, rows: nat, rowBytes: nat, pitch: nat, i: nat, b: nat)
    requires rowBytes <= pitch && Extent(rows, rowBytes, pitch) <= |mapped|
    requires i < rows && b < rowBytes
    ensures i * rowBytes + b < rows * rowBytes && i * pitch + b < |mapped|
    ensures Gather(mapped, rows, rowBytes, pitch)[i * rowBytes + b] == mapped[i * pitch + b]
  {
    RowInside(i, rows, b, rowBytes, pitch);
    if i < rows - 1 {
      EarlierRow(i, rows - 1, b, rowBytes, pitch);
      GatherStep(mapped, rows, rowBytes, pitch, i * rowBytes + b);
      GatherAt(mapped, rows - 1, rowBytes, pitch, i, b);
    } else {
      GatherStep(mapped, rows, rowBytes, pitch, i * rowBytes + b);
    }
  }

  /** Byte `b` of row `i` of the region now holds host byte `b` of row `i`. */
  lemma {:induction false} ScatterAt(host: seq<byte>, mapped: seq<byte>, rows: nat, rowBytes: nat, pitch: nat, i: nat, b: nat)
    requires rowBytes <= pitch && |host| == rows * rowBytes && Extent(rows, rowBytes, pitch) <= |mapped|
    requires i < rows && b < rowBytes
    ensures i * rowBytes + b < |host| && i * pitch + b < |mapped|
    ensures Scatter(host, mapped, rows, rowBytes, pitch)[i * pitch + b] == host[i * rowBytes + b]
  {
    RowInside(i, rows, b, rowBytes, pitch);
    if i < rows - 1 {
      EarlierRow(i, rows - 1, b, rowBytes, pitch);
      LastRow(rows, rowBytes, pitch);
      var front := host[..(rows - 1) * rowBytes];
      ScatterAt(front, mapped, rows - 1, rowBytes, pitch, i, b);
      ScatterOutsideLastRow(host, mapped, rows, rowBytes, pitch, i * pitch + b);
      assert front[i * rowBytes + b] == host[i * rowBytes + b];
    } else {
      ScatterStep(host, mapped, rows, rowBytes, pitch, i * pitch + b);
    }
  }

  /** A byte outside the last row's data is as the first rows - 1 rows left it. */
  lemma ScatterOutsideLastRow(host: seq<byte>, mapped: seq<byte>, rows: nat, rowBytes: nat, pitch: nat, k: nat)
    requires rowBytes <= pitch && |host| == rows * rowBytes && Extent(rows, rowBytes, pitch) <= |mapped|
    requires 0 < rows && k < |mapped|
    requires !((rows - 1) * pitch <= k < (rows - 1) * pitch + rowBytes)
    ensures 0 <= (rows - 1) * rowBytes <= |host| && Extent(rows - 1, rowBytes, pitch) <= |mapped|
    ensures Scatter(host, mapped, rows, rowBytes, pitch)[k]
         == Scatter(host[..(rows - 1) * rowBytes], mapped, rows - 1, rowBytes, pitch)[k]
  {
    ScatterStep(host, mapped, rows, rowBytes, pitch, k);
  }

  /** Byte `b` of row `i`, when it is padding or past the first `rows` rows, is in none of their data. */
  lemma OffsetOutsideRows(i: nat, b: nat, rows: nat, rowBytes: nat, pitch: nat) returns (k: nat)
    requires rowBytes <= pitch && b < pitch && (rows <= i || rowBytes <= b)
    ensures k == i * pitch + b
    ensures forall r | 0 <= r < rows :: !InRow(k, r, rowBytes, pitch)
  {
    k := i * pitch + b;
    forall r | 0 <= r < rows
      ensures !InRow(k, r, rowBytes, pitch)
    {
      OutsideRow(i, r, b, rowBytes, pitch);
    }
  }

  /** A byte in no written row's data keeps what the region held. */
  lemma {:induction false} ScatterKeeps(host: seq<byte>, mapped: seq<byte>, rows: nat, rowBytes: nat, pitch: nat, k: nat)
    requires rowBytes <= pitch && |host| == rows * rowBytes && Extent(rows, rowBytes, pitch) <= |mapped|
    requires k < |mapped| && forall r | 0 <= r < rows :: !InRow(k, r, rowBytes, pitch)
    ensures Scatter(host, mapped, rows, rowBytes, pitch)[k] == mapped[k]
  {
    if 0 < rows {
      assert !InRow(k, rows - 1, rowBytes, pitch);
      ScatterOutsideLastRow(host, mapped, rows, rowBytes, pitch, k);
      var front := host[..(rows - 1) * rowBytes];
      ScatterKeeps(front, mapped, rows - 1, rowBytes, pitch, k);
    }
  }

  /** Padding bytes (b >= rowBytes) of the written rows keep what the region held. */
  lemma ScatterKeepsPadding(host: seq<byte>, mapped: seq<byte>, rows: nat, rowBytes: nat, pitch: nat, i: nat, b: nat)
    requires rowBytes <= pitch && |host| == rows * rowBytes && Extent(rows, rowBytes, pitch) <= |mapped|
    requires i < rows && rowBytes <= b < pitch && i * pitch + b < |mapped|
    ensures Scatter(host, mapped, rows, rowBytes, pitch)[i * pitch + b] == mapped[i * pitch + b]
  {
    var k := OffsetOutsideRows(i, b, rows, rowBytes, pitch);
    ScatterKeeps(host, mapped, rows, rowBytes, pitch, k);
  }

  /** Bytes of rows at or past `rows` keep what the region held. */
  lemma ScatterKeepsBeyond(host: seq<byte>, mapped: seq<byte>, rows: nat, rowBytes: nat, pitch: nat, i: nat, b: nat)
    requires rowBytes <= pitch && |host| == rows * rowBytes && Extent(rows, rowBytes, pitch) <= |mapped|
    requires rows <= i && b < pitch && i * pitch + b < |mapped|
    ensures Scatter(host, mapped, rows, rowBytes, pitch)[i * pitch + b] == mapped[i * pitch + b]
  {
    var k := OffsetOutsideRows(i, b, rows, rowBytes, pitch);
    ScatterKeeps(host, mapped, rows, rowBytes, pitch, k);
  }

  /** With empty rows nothing is written. */
  lemma {:induction false} ScatterNothing(host: seq<byte>, mapped: seq<byte>, rows: nat, pitch: nat)
    requires |host| == 0 && Extent(rows, 0, pitch) <= |mapped|
    ensures Scatter(host, mapped, rows, 0, pitch) == mapped
  {
    if 0 < rows {
      ExtentMonotone(rows - 1, rows, 0, pitch);
      ScatterNothing(host, mapped, rows - 1, pitch);
    }
  }

  lemma RoundTripAt(host: seq<byte>, mapped: seq<byte>, rows: nat, rowBytes: nat, pitch: nat, k: nat)
    requires rowBytes <= pitch && |host| == rows * rowBytes && Extent(rows, rowBytes, pitch) <= |mapped|
    requires k < |host|
    ensures Gather(Scatter(host, mapped, rows, rowBytes, pitch), rows, rowBytes, pitch)[k] == host[k]
  {
    var i, b := Decompose(k, rows, rowBytes);
    GatherAt(Scatter(host, mapped, rows, rowBytes, pitch), rows, rowBytes, pitch, i, b);
    ScatterAt(host, mapped, rows, rowBytes, pitch, i, b);
  }

  /** Writing a packed buffer and reading it back gives the buffer: to_gpu then to_cpu. */
  lemma ScatterThenGather(host: seq<byte>, mapped: seq<byte>, rows: nat, rowBytes: nat, pitch: nat)
    requires rowBytes <= pitch && |host| == rows * rowBytes && Extent(rows, rowBytes, pitch) <= |mapped|
    ensures Gather(Scatter(host, mapped, rows, rowBytes, pitch), rows, rowBytes, pitch) == host
  {
    forall k | 0 <= k < |host|
      ensures Gather(Scatter(host, mapped, rows, rowBytes, pitch), rows, rowBytes, pitch)[k] == host[k]
    {
      RoundTripAt(host, mapped, rows, rowBytes, pitch, k);
    }
  }

  lemma WriteBackAt(mapped: seq<byte>, rows: nat, rowBytes: nat, pitch: nat, k: nat)
    requires rowBytes <= pitch && Extent(rows, rowBytes, pitch) <= |mapped|
    requires 0 < pitch && k < |mapped|
    ensures Scatter(Gather(mapped, rows, rowBytes, pitch), mapped, rows, rowBytes, pitch)[k] == mapped[k]
  {
    var g := Gather(mapped, rows, rowBytes, pitch);
    var i, b := RowOf(k, pitch);
    if i < rows && b < rowBytes {
      GatherAt(mapped, rows, rowBytes, pitch, i, b);
      ScatterAt(g, mapped, rows, rowBytes, pitch, i, b);
    } else if i < rows {
      ScatterKeepsPadding(g, mapped, rows, rowBytes, pitch, i, b);
    } else {
      ScatterKeepsBeyond(g, mapped, rows, rowBytes, pitch, i, b);
    }
  }

  /** Writing back what was read leaves the region as it was: to_cpu then to_gpu. */
  lemma GatherThenScatter(mapped: seq<byte>, rows: nat, rowBytes: nat, pitch: nat)
    requires rowBytes <= pitch && Extent(rows, rowBytes, pitch) <= |mapped|
    ensures Scatter(Gather(mapped, rows, rowBytes, pitch), mapped, rows, rowBytes, pitch) == mapped
  {
    if pitch == 0 {
      ScatterNothing(Gather(mapped, rows, rowBytes, pitch), mapped, rows, pitch);
    } else {
      forall k | 0 <= k < |mapped|
        ensures Scatter(Gather(mapped, rows, rowBytes, pitch), mapped, rows, rowBytes, pitch)[k] == mapped[k]
      {
        WriteBackAt(mapped, rows, rowBytes, pitch, k);
      }
    }
  }

  /** Byte `b` of row `i` of `s`, or 0 past its end. */
  function RowByte(s: seq<byte>, pitch: nat, i: nat, b: nat): byte
  {
    if i * pitch + b < |s| then s[i * pitch + b] else 0
  }

  /** Padding is never read: regions that agree on their rows gather alike. */
  lemma GatherIgnoresPadding(m: seq<byte>, m': seq<byte>, rows: nat, rowBytes: nat, pitch: nat)
    requires rowBytes <= pitch && Extent(rows, rowBytes, pitch) <= |m| && Extent(rows, rowBytes, pitch) <= |m'|
    requires forall i, b | 0 <= i < rows && 0 <= b < rowBytes :: RowByte(m, pitch, i, b) == RowByte(m', pitch, i, b)
    ensures Gather(m, rows, rowBytes, pitch) == Gather(m', rows, rowBytes, pitch)
  {
    var g, g' := Gather(m, rows, rowBytes, pitch), Gather(m', rows, rowBytes, pitch);
    forall k | 0 <= k < |g|
      ensures g[k] == g'[k]
    {
      var i, b := Decompose(k, rows, rowBytes);
      GatherAt(m, rows, rowBytes, pitch, i, b);
      GatherAt(m', rows, rowBytes, pitch, i, b);
      assert RowByte(m, pitch, i, b) == RowByte(m', pitch, i, b);
    }
  }

  lemma Distrib(x: nat, y: nat, m: nat)
    ensures (x + y) * m == x * m + y * m
  {
  }

  lemma Assoc(a: nat, b: nat, m: nat)
    ensures (a * b) * m == a * (b * m)
  {
  }

  /** The flat element offset splits into a row of the pitched layout and a byte within it. */
  lemma ElementOffset(c: nat, height: nat, h: nat, width: nat, w: nat, elementSize: nat, e: nat)
    ensures (c * height * width + h * width + w) * elementSize + e
         == (c * height + h) * (width * elementSize) + (w * elementSize + e)
  {
    var x := c * height;
    Distrib(x * width + h * width, w, elementSize);
    Distrib(x * width, h * width, elementSize);
    Assoc(x, width, elementSize);
    Assoc(h, width, elementSize);
    Distrib(x, h, width * elementSize);
  }

  /** The packed index of byte `e` of element (c, h, w), as the tests compute it. */
  function PackedIndex(height: nat, width: nat, elementSize: nat, c: nat, h: nat, w: nat, e: nat): nat
  {
    (c * height * width + h * width + w) * elementSize + e
  }

  /** Byte `w * elementSize + e` of row `c * height + h` of a region whose rows lie `pitch` apart. */
  function PitchedIndex(height: nat, pitch: nat, elementSize: nat, c: nat, h: nat, w: nat, e: nat): nat
  {
    (c * height + h) * pitch + w * elementSize + e
  }

  /**
   * Element (c, h, w) of a [channels, height, width] array whose slices are
   * taken as consecutive rows sits at (c*height*width + h*width + w)*elementSize
   * of the packed buffer: byte w*elementSize of row c*height + h, which the
   * packed buffer takes from the same byte of that row of the region.
   */
  lemma ElementLocation(mapped: seq<byte>, channels: nat, height: nat, width: nat, elementSize: nat, pitch: nat,
                        c: nat, h: nat, w: nat, e: nat)
    requires width * elementSize <= pitch && Extent(height * channels, width * elementSize, pitch) <= |mapped|
    requires c < channels && h < height && w < width && e < elementSize
    ensures PackedIndex(height, width, elementSize, c, h, w, e) < (height * channels) * (width * elementSize)
    ensures PitchedIndex(height, pitch, elementSize, c, h, w, e) < |mapped|
    ensures Gather(mapped, height * channels, width * elementSize, pitch)[PackedIndex(height, width, elementSize, c, h, w, e)]
         == mapped[PitchedIndex(height, pitch, elementSize, c, h, w, e)]
  {
    var row, offset := c * height + h, w * elementSize + e;
    RowBefore(c, channels, h, height);
    assert row < height * channels;
    RowBefore(w, width, e, elementSize);
    ElementOffset(c, height, h, width, w, elementSize, e);
    GatherAt(mapped, height * channels, width * elementSize, pitch, row, offset);
  }

  /** One memcpy of `n` bytes from `src` at `srcOff` into `dst` at `dstOff`. */
  method CopyRow(dst: array<byte>, dstOff: nat, src: seq<byte>, srcOff: nat, n: nat)
    requires dstOff + n <= dst.Length && srcOff + n <= |src|
    modifies dst
    ensures dst[..] == Splice(old(dst[..]), dstOff, src[srcOff..srcOff + n])
  {
    forall j | 0 <= j < n {
      dst[dstOff + j] := src[srcOff + j];
    }
  }
}

=== FILE: shape_text.dfy ===
/**
 * The shape description print_shape returns: the decimal channel count,
 * height and width separated by single spaces, as std::to_string writes them.
 */
module ShapeText {
  predicate IsDigit(ch: char)
  {
    '0' <= ch <= '9'
  }

  predicate AllDigits(s: string)
  {
    forall k | 0 <= k < |s| :: IsDigit(s[k])
  }

  function Digit(d: nat): (ch: char)
    requires d < 10
    ensures IsDigit(ch)
  {
    ('0' as int + d) as char
  }

  function DigitValue(ch: char): (d: nat)
    requires IsDigit(ch)
    ensures d < 10 && Digit(d) == ch
  {
    ch as int - '0' as int
  }

  /** The decimal numeral of `n`: digits only, and no leading zero unless `n` is 0. */
  function DecimalString(n: nat): (s: string)
    ensures 1 <= |s| && AllDigits(s)
    ensures s[0] == '0' ==> n == 0 && s == "0"
  {
    if n < 10 then [Digit(n)] else DecimalString(n / 10) + [Digit(n % 10)]
  }

  /** The value a string of decimal digits denotes. */
  function DecimalValue(s: string): nat
    requires AllDigits(s)
  {
    if s == [] then 0 else DecimalValue(s[..|s| - 1]) * 10 + DigitValue(s[|s| - 1])
  }

  /** Reading the numeral back gives the number. */
  lemma {:induction false} DecimalRoundTrip(n: nat)
    ensures DecimalValue(DecimalString(n)) == n
  {
    var s := DecimalString(n);
    if n < 10 {
      assert s[..|s| - 1] == [];
    } else {
      DecimalRoundTrip(n / 10);
      assert s[..|s| - 1] == DecimalString(n / 10);
    }
  }

  /** Equal numerals denote equal numbers. */
  lemma DecimalStringInjective(n: nat, m: nat)
    requires DecimalString(n) == DecimalString(m)
    ensures n == m
  {
    DecimalRoundTrip(n);
    DecimalRoundTrip(m);
  }

  /** "channels height width". */
  function ShapeString(channels: nat, height: nat, width: nat): (s: string)
    ensures forall k | 0 <= k < |s| :: IsDigit(s[k]) || s[k] == ' '
    ensures 5 <= |s| && IsDigit(s[0]) && IsDigit(s[|s| - 1])
  {
    DecimalString(channels) + " " + DecimalString(height) + " " + DecimalString(width)
  }

  /** The index of the first space in `s`, or |s| when there is none. */
  function FirstSpace(s: string): (i: nat)
    ensures i <= |s|
  {
    if s == [] || s[0] == ' ' then 0 else 1 + FirstSpace(s[1..])
  }

  lemma {:induction false} FirstSpaceAfterDigits(a: string, rest: string)
    requires AllDigits(a) && rest != [] && rest[0] == ' '
    ensures FirstSpace(a + rest) == |a|
  {
    if a != [] {
      assert (a + rest)[1..] == a[1..] + rest;
      FirstSpaceAfterDigits(a[1..], rest);
    } else {
      assert a + rest == rest;
    }
  }

  /** A run of digits ended by a space is recovered from the text. */
  lemma SplitAtSpace(a: string, b: string, a': string, b': string)
    requires AllDigits(a) && AllDigits(a')
    requires a + " " + b == a' + " " + b'
    ensures a == a' && b == b'
  {
    var s := a + " " + b;
    assert s == a + (" " + b);
    assert s == a' + (" " + b');
    FirstSpaceAfterDigits(a, " " + b);
    FirstSpaceAfterDigits(a', " " + b');
    assert a == s[..|a|] == a';
    assert b == s[|a| + 1..] == b';
  }

  /** Distinct shapes print differently: the text determines the shape. */
  lemma ShapeStringInjective(c: nat, h: nat, w: nat, c': nat, h': nat, w': nat)
    requires ShapeString(c, h, w) == ShapeString(c', h', w')
    ensures c == c' && h == h' && w == w'
  {
    var dc, dh, dw := DecimalString(c), DecimalString(h), DecimalString(w);
    var dc', dh', dw' := DecimalString(c'), DecimalString(h'), DecimalString(w');
    assert ShapeString(c, h, w) == dc + " " + (dh + " " + dw);
    assert ShapeString(c', h', w') == dc' + " " + (dh' + " " + dw');
    SplitAtSpace(dc, dh + " " + dw, dc', dh' + " " + dw');
    SplitAtSpace(dh, dw, dh', dw');
    DecimalStringInjective(c, c');
    DecimalStringInjective(h, h');
    DecimalStringInjective(w, w');
  }

  /** The only shape whose text is that of (c, h, w) is (c, h, w) itself. */
  lemma ShapeStringDetermines(c: nat, h: nat, w: nat)
    ensures forall c': nat, h': nat, w': nat | ShapeString(c', h', w') == ShapeString(c, h, w) :: c' == c && h' == h && w' == w
  {
    forall c': nat, h': nat, w': nat | ShapeString(c', h', w') == ShapeString(c, h, w)
      ensures c' == c && h' == h && w' == w
    {
      ShapeStringInjective(c', h', w', c, h, w);
    }
  }

  /** A fresh instance, whose shape fields are all zero, prints "0 0 0". */
  lemma ZeroShapeString()
    ensures ShapeString(0, 0, 0) == "0 0 0"
  {
    assert DecimalString(0) == "0";
  }
}

=== FILE: texture_as_buffer.dfy ===
/**
 * Texture_As_Buffer: a D3D11 2D-array texture used as a typed buffer of
 * shape [channels, height, width], with a staging texture and a packed host
 * buffer for moving its contents between device and host.
 *
 * Device objects are modelled by reference: a texture owns the bytes of its
 * subresource 0 as Map exposes them (all array slices as consecutive rows,
 * `rowPitch` bytes apart), and a view just names its texture. What the device
 * and the immediate context answer is a parameter of each call.
 */
module Tab {
  import opened Optional
  import opened Bytes
  import opened DxgiFormats
  import opened RowPitch
  import ShapeText

  /** The parts of a texture description that the transfer layer sets or reads. */
  datatype TextureDesc = TextureDesc(width: nat, height: nat, arraySize: nat, format: DxgiFormat)

  /**
   * How the device answers: whether each creation call succeeds, and how many
   * padding bytes it lays out after each row of a texture.
   */
  datatype Device = Device(createTexture2D: bool, createUav: bool, createSrv: bool, rowPadding: nat)

  /** How the immediate context answers Map. */
  datatype Context = Context(mapSucceeds: bool)

  /** A 2D texture array and the memory of its subresource 0. */
  class Texture2D {
    const desc: TextureDesc
    const rowPitch: nat
    const memory: array<byte>

    /** A texture of a supported format whose rows hold a row of elements each. */
    ghost predicate Valid()
    {
      && ElementSize(desc.format).Some?
      && desc.width * ElementSize(desc.format).value <= rowPitch
      && memory.Length == desc.height * desc.arraySize * rowPitch
    }

    constructor (desc: TextureDesc, rowPitch: nat)
      ensures this.desc == desc && this.rowPitch == rowPitch
      ensures fresh(memory) && memory.Length == desc.height * desc.arraySize * rowPitch
    {
      this.desc := desc;
      this.rowPitch := rowPitch;
      memory := new byte[desc.height * desc.arraySize * rowPitch];
    }
  }

  /** An unordered-access or shader-resource view of a texture. */
  class View {
    const resource: Texture2D

    constructor (resource: Texture2D)
      ensures this.resource == resource
    {
      this.resource := resource;
    }
  }

  /** Creates a texture laid out with the device's row padding, or null when the device refuses. */
  method CreateTexture2D(device: Device, desc: TextureDesc, rowPitch: nat) returns (t: Texture2D?)
    ensures t == null <==> !device.createTexture2D
    ensures t != null ==> fresh(t) && fresh(t.memory) && t.desc == desc && t.rowPitch == rowPitch
    ensures t != null ==> t.memory.Length == desc.height * desc.arraySize * rowPitch
  {
    if device.createTexture2D {
      t := new Texture2D(desc, rowPitch);
    } else {
      t := null;
    }
  }

  /** Creates a view of `resource`, or null when the device refuses. */
  method CreateView(accepted: bool, resource: Texture2D) returns (v: View?)
    ensures v == null <==> !accepted
    ensures v != null ==> fresh(v) && v.resource == resource
  {
    if accepted {
      v := new View(resource);
    } else {
      v := null;
    }
  }

  /** Copies the whole of `src` into `dst`, two textures of the same layout. */
  method CopyResource(dst: Texture2D, src: Texture2D)
    requires dst.memory != src.memory && dst.memory.Length == src.memory.Length
    modifies dst.memory
    ensures dst.memory[..] == src.memory[..]
  {
    forall k | 0 <= k < dst.memory.Length {
      dst.memory[k] := src.memory[k];
    }
  }

  /** Which branch of init a call takes. */
  datatype InitOutcome = ZeroShape | UnrecognizedFormat | TextureFailed | UavFailed | SrvFailed | Created

  function InitOutcomeOf(device: Device, channels: nat, height: nat, width: nat, format: DxgiFormat): InitOutcome
  {
    if channels * height * width == 0 then ZeroShape
    else if ElementSize(format).None? then UnrecognizedFormat
    else CreationOutcome(device)
  }

  /** Which branch the creating half of init takes: the first of the three creations the device refuses. */
  function CreationOutcome(device: Device): InitOutcome
  {
    if !device.createTexture2D then TextureFailed
    else if !device.createUav then UavFailed
    else if !device.createSrv then SrvFailed
    else Created
  }


  /**
   * The row loop of to_cpu: `rows` rows of `rowBytes` bytes, `pitch` bytes
   * apart in the mapped region, copied one memcpy each into a packed buffer.
   */
  method CopyRowsOut(dst: array<byte>, src: array<byte>, rows: nat, rowBytes: nat, pitch: nat)
    requires dst != src && dst.Length == rows * rowBytes
    requires rowBytes <= pitch && Extent(rows, rowBytes, pitch) <= src.Length
    modifies dst
    ensures dst[..] == Gather(src[..], rows, rowBytes, pitch)
  {
    var row := 0;
    while row < rows
      invariant row <= rows
      invariant row * rowBytes <= dst.Length
      invariant Extent(row, rowBytes, pitch) <= src.Length
      invariant dst[..row * rowBytes] == Gather(src[..], row, rowBytes, pitch)
    {
      LastRow(row + 1, rowBytes, pitch);
      ExtentMonotone(row + 1, rows, rowBytes, pitch);
      GatherGrows(src[..], row, rowBytes, pitch);
      MulMonotone(row + 1, rows, rowBytes);
      ghost var before := dst[..];
      CopyRow(dst, row * rowBytes, src[..], row * pitch, rowBytes);
      SplicePrefix(before, row * rowBytes, src[..][row * pitch .. row * pitch + rowBytes]);
      row := row + 1;
    }
    assert dst[..] == dst[..rows * rowBytes];
  }

  /**
   * The row loop of to_gpu: `rows` rows of `rowBytes` bytes from a packed
   * buffer, copied one memcpy each into a mapped region `pitch` bytes apart.
   */
  method CopyRowsIn(dst: array<byte>, src: array<byte>, rows: nat, rowBytes: nat, pitch: nat)
    requires dst != src && rows * rowBytes <= src.Length
    requires rowBytes <= pitch && Extent(rows, rowBytes, pitch) <= dst.Length
    modifies dst
    ensures dst[..] == Scatter(src[..rows * rowBytes], old(dst[..]), rows, rowBytes, pitch)
  {
    ghost var host, region := src[..], dst[..];
    var row := 0;
    while row < rows
      invariant row <= rows
      invariant src[..] == host && row * rowBytes <= |host|
      invariant Extent(row, rowBytes, pitch) <= |region|
      invariant dst[..] == Scatter(host[..row * rowBytes], region, row, rowBytes, pitch)
    {
      LastRow(row + 1, rowBytes, pitch);
      ExtentMonotone(row + 1, rows, rowBytes, pitch);
      MulMonotone(row + 1, rows, rowBytes);
      ScatterGrows(host, region, row, rowBytes, pitch);
      CopyRow(dst, row * pitch, src[..], row * rowBytes, rowBytes);
      row := row + 1;
    }
  }

  /** The byte fill's temporary buffer: `n` copies of `clearVal`. */
  method ByteFill(clearVal: byte, n: nat) returns (bytes: array<byte>)
    ensures fresh(bytes)
    ensures bytes[..] == Replicate(clearVal, n)
  {
    bytes := new byte[n];
    var i := 0;
    while i < n
      invariant i <= n
      invariant bytes[..i] == Replicate(clearVal, i)
    {
      bytes[i] := clearVal;
      i := i + 1;
    }
    assert bytes[..] == bytes[..n];
  }

  /**
   * The word fill's temporary buffer: (n + 3) / 4 copies of `clearVal`, seen
   * as the bytes to_gpu reads through its byte pointer.
   */
  method WordFill(clearVal: word, n: nat) returns (bytes: array<byte>)
    ensures fresh(bytes)
    ensures bytes[..] == WordImage(Replicate(clearVal, (n + 3) / 4))
    ensures n <= bytes.Length && bytes[..n] == WordImage(Replicate(clearVal, (n + 3) / 4))[..n]
  {
    var count := (n + 3) / 4;
    var initData := new word[count];
    var i := 0;
    while i < count
      invariant i <= count
      invariant initData[..i] == Replicate(clearVal, i)
    {
      initData[i] := clearVal;
      i := i + 1;
    }
    assert initData[..] == initData[..count];
    var image := WordImage(initData[..]);
    bytes := new byte[|image|](k requires 0 <= k < |image| => image[k]);
    assert bytes[..] == image;
    assert bytes[..n] == image[..n];
  }

  class TextureAsBuffer {
    var channels: nat
    var height: nat
    var width: nat
    var elementSize: nat
    var texture: Texture2D?
    var textureUav: View?
    var textureSrv: View?
    var textureStaging: Texture2D?
    var data: array?<byte>

    /** The device objects and host buffers this instance has given back (Release, delete[]). */
    ghost var released: set<object>

    /** The objects the handle fields and the host buffer pointer hold. */
    ghost function Held(): set<object>
      reads this`texture, this`textureUav, this`textureSrv, this`textureStaging, this`data
    {
      (if texture == null then {} else {texture as object})
      + (if textureUav == null then {} else {textureUav as object})
      + (if textureSrv == null then {} else {textureSrv as object})
      + (if textureStaging == null then {} else {textureStaging as object})
      + (if data == null then {} else {data as object})
    }

    /** The memory of the texture and of the staging texture. */
    ghost function DeviceMemory(): set<object>
      reads this
    {
      (if texture == null then {} else {texture.memory as object})
      + StagingMemory()
    }

    ghost function StagingMemory(): set<object>
      reads this
    {
      if textureStaging == null then {} else {textureStaging.memory as object}
    }

    function LogicalSize(): nat
      reads this
    {
      channels * height * width * elementSize
    }

    /** Array slices are taken as consecutive rows. */
    function Rows(): nat
      reads this
    {
      height * channels
    }

    function RowBytes(): nat
      reads this
    {
      width * elementSize
    }

    /** No held object has been given back. */
    ghost predicate Owned()
      reads this
    {
      && (texture != null ==> texture !in released)
      && (textureUav != null ==> textureUav !in released)
      && (textureSrv != null ==> textureSrv !in released)
      && (textureStaging != null ==> textureStaging !in released)
      && (data != null ==> data !in released)
    }

    /** The two views are distinct views of the texture, which has the recorded shape and element size. */
    ghost predicate DeviceConsistent()
      reads this
    {
      && (textureUav != null ==> texture != null && textureUav.resource == texture)
      && (textureSrv != null ==> texture != null && textureSrv.resource == texture && textureSrv != textureUav)
      && (texture != null ==>
            && 0 < channels && 0 < height && 0 < width
            && texture.Valid()
            && texture.desc == TextureDesc(width, height, channels, texture.desc.format)
            && ElementSize(texture.desc.format) == Some(elementSize))
    }

    /** The staging texture is well formed, and no two of the three memories are one array. */
    ghost predicate StagingConsistent()
      reads this
    {
      && (textureStaging != null ==> textureStaging.Valid())
      && (texture != null && textureStaging != null ==> texture.memory != textureStaging.memory)
      && (texture != null && data != null ==> data != texture.memory)
      && (textureStaging != null && data != null ==> data != textureStaging.memory)
    }

    ghost predicate Valid()
      reads this
    {
      Owned() && DeviceConsistent() && StagingConsistent()
    }

    /**
     * The staging texture, when there is one, was made from the current
     * texture and the host buffer for its shape, as init_staging leaves them.
     */
    ghost predicate Coherent()
      reads this
    {
      textureStaging != null ==>
        && texture != null && data != null
        && textureStaging.desc == texture.desc
        && textureStaging.rowPitch == texture.rowPitch
        && textureStaging.memory.Length == texture.memory.Length
        && RowBytes() <= textureStaging.rowPitch
        && Extent(Rows(), RowBytes(), textureStaging.rowPitch) <= textureStaging.memory.Length
        && data.Length == LogicalSize() == Rows() * RowBytes()
    }

    /**
     * The shape as decimal channels, height and width separated by single
     * spaces. It reads the three shape fields and nothing else, and the text
     * determines them.
     */
    function PrintShape(): (s: string)
      reads this`channels, this`height, this`width
      ensures forall c: nat, h: nat, w: nat | ShapeText.ShapeString(c, h, w) == s :: c == channels && h == height && w == width
    {
      ShapeText.ShapeStringDetermines(channels, height, width);
      ShapeText.ShapeString(channels, height, width)
    }

    /** The default member initialisers: an empty shape and no objects. */
    constructor ()
      ensures Valid() && Coherent()
      ensures channels == 0 && height == 0 && width == 0 && elementSize == 0
      ensures texture == null && textureUav == null && textureSrv == null
      ensures textureStaging == null && data == null
      ensures released == {}
      ensures PrintShape() == "0 0 0"
    {
      channels, height, width, elementSize := 0, 0, 0, 0;
      texture, textureUav, textureSrv := null, null, null;
      textureStaging, data := null, null;
      released := {};
      ShapeText.ZeroShapeString();
    }

    /**
     * Creates the texture and its two default views. A zero shape is refused
     * before any field is written; an unrecognised format after the shape
     * fields are; a failed creation nulls all three handles. `lostTexture`
     * and `lostUav` are the objects created on the way and then dropped:
     * neither held nor given back.
     */
    method Init(device: Device, c: nat, h: nat, w: nat, format: DxgiFormat := R8_UNORM)
      returns (ghost lostTexture: Texture2D?, ghost lostUav: View?)
      requires Valid()
      modifies this`channels, this`height, this`width, this`elementSize
      modifies this`texture, this`textureUav, this`textureSrv
      ensures Valid()
      ensures var outcome := InitOutcomeOf(device, c, h, w, format);
        && (outcome == ZeroShape ==> channels == old(channels) && height == old(height) && width == old(width))
        && (outcome != ZeroShape ==> channels == c && height == h && width == w)
        && elementSize == (if outcome == ZeroShape || outcome == UnrecognizedFormat then old(elementSize)
                           else ElementSize(format).value)
        && (texture != null <==> outcome == Created)
        && (textureUav != null <==> outcome == Created)
        && (textureSrv != null <==> outcome == Created)
        && (outcome == Created ==>
              && fresh(texture) && fresh(texture.memory) && fresh(textureUav) && fresh(textureSrv)
              && texture.desc == TextureDesc(w, h, c, format)
              && texture.rowPitch == RowBytes() + device.rowPadding)
        && (lostTexture != null <==> outcome == UavFailed || outcome == SrvFailed)
        && (lostUav != null <==> outcome == SrvFailed)
      ensures lostTexture != null ==>
        && fresh(lostTexture) && lostTexture !in Held()
        && lostTexture.desc == TextureDesc(w, h, c, format)
      ensures lostUav != null ==> fresh(lostUav) && lostUav !in Held() && lostUav.resource == lostTexture
      ensures old(textureStaging) == null ==> Coherent()
    {
      if c * h * w == 0 {
        Abandon();
        return null, null;
      }
      height, width, channels := h, w, c;
      var size := ElementSize(format);
      if size.None? {
        Abandon();
        return null, null;
      }
      elementSize := size.value;
      lostTexture, lostUav := CreateTextureAndViews(device, format);
    }

    /**
     * The creating half of init: a texture of the recorded shape, then its
     * UAV, then its SRV. The first refusal nulls all three handles; a refused
     * view drops the texture, and a refused SRV the UAV too.
     */
    method CreateTextureAndViews(device: Device, format: DxgiFormat) returns (ghost lostTexture: Texture2D?, ghost lostUav: View?)
      requires Owned() && StagingConsistent()
      requires 0 < channels && 0 < height && 0 < width
      requires ElementSize(format) == Some(elementSize)
      modifies this`texture, this`textureUav, this`textureSrv
      ensures Valid()
      ensures var outcome := CreationOutcome(device);
        && (texture != null <==> outcome == Created)
        && (textureUav != null <==> outcome == Created)
        && (textureSrv != null <==> outcome == Created)
        && (lostTexture != null <==> outcome == UavFailed || outcome == SrvFailed)
        && (lostUav != null <==> outcome == SrvFailed)
      ensures texture != null ==>
        && fresh(texture) && fresh(texture.memory) && fresh(textureUav) && fresh(textureSrv)
        && texture.desc == TextureDesc(width, height, channels, format)
        && texture.rowPitch == RowBytes() + device.rowPadding
      ensures lostTexture != null ==>
        && fresh(lostTexture) && lostTexture !in Held()
        && lostTexture.desc == TextureDesc(width, height, channels, format)
      ensures lostUav != null ==> fresh(lostUav) && lostUav !in Held() && lostUav.resource == lostTexture
    {
      var t := CreateTexture2D(device, TextureDesc(width, height, channels, format), width * elementSize + device.rowPadding);
      if t == null {
        Abandon();
        return null, null;
      }
      lostTexture, lostUav := CreateViews(device, t);
    }

    /**
     * The UAV and then the SRV of a new texture `t`. The first refusal nulls
     * all three handles and drops `t`, and the UAV too when the SRV is refused.
     */
    method CreateViews(device: Device, t: Texture2D) returns (ghost lostTexture: Texture2D?, ghost lostUav: View?)
      requires Owned() && StagingConsistent()
      requires 0 < channels && 0 < height && 0 < width
      requires t !in released && t != textureStaging
      requires textureStaging != null ==> t.memory != textureStaging.memory
      requires data != null ==> data != t.memory
      requires t.Valid() && t.desc == TextureDesc(width, height, channels, t.desc.format)
      requires ElementSize(t.desc.format) == Some(elementSize)
      modifies this`texture, this`textureUav, this`textureSrv
      ensures Valid()
      ensures var ok := device.createUav && device.createSrv;
        (texture != null <==> ok) && (textureUav != null <==> ok) && (textureSrv != null <==> ok)
      ensures texture != null ==> texture == t && fresh(textureUav) && fresh(textureSrv)
      ensures lostTexture != null <==> !(device.createUav && device.createSrv)
      ensures lostTexture != null ==> lostTexture == t && t !in Held()
      ensures lostUav != null <==> device.createUav && !device.createSrv
      ensures lostUav != null ==> fresh(lostUav) && lostUav !in Held() && lostUav.resource == t
    {
      var uav := CreateView(device.createUav, t);
      if uav == null {
        Abandon();
        return t, null;
      }
      var srv := CreateView(device.createSrv, t);
      if srv == null {
        Abandon();
        return t, uav;
      }
      texture, textureUav, textureSrv := t, uav, srv;
      return null, null;
    }

    /** The failure paths of init: the texture and both views are set to null without being released. */
    method Abandon()
      requires Owned() && StagingConsistent()
      modifies this`texture, this`textureUav, this`textureSrv
      ensures Valid()
      ensures texture == null && textureUav == null && textureSrv == null
    {
      texture, textureUav, textureSrv := null, null, null;
    }

    /**
     * Creates the staging texture from the texture's description and layout,
     * then the host buffer of the logical size. Needs a texture. A previous
     * staging texture and host buffer are dropped, not given back. Of the
     * device's answers only `createTexture2D` matters here: the staging
     * texture takes the texture's own row pitch, so `rowPadding` is unused.
     */
    method InitStaging(device: Device)
      requires Valid()
      modifies this`textureStaging, this`data
      ensures Valid() && Coherent()
      ensures old(texture) == null || !device.createTexture2D ==> textureStaging == null && data == old(data)
      ensures old(texture) != null && device.createTexture2D ==>
        && fresh(textureStaging) && fresh(textureStaging.memory) && fresh(data)
        && textureStaging.desc == texture.desc && textureStaging.rowPitch == texture.rowPitch
        && data.Length == LogicalSize()
    {
      if texture == null {
        textureStaging := null;
        return;
      }
      var staging := CreateTexture2D(device, texture.desc, texture.rowPitch);
      if staging == null {
        textureStaging := null;
        return;
      }
      textureStaging := staging;
      data := new byte[channels * height * width * elementSize];
      PackedSize(channels, height, width, elementSize);
      ExtentWithin(Rows(), RowBytes(), staging.rowPitch);
    }

    /**
     * Copies the texture into the staging texture, then its rows into the
     * packed host buffer, which it returns; null without a staging texture or
     * when Map fails.
     */
    method ToCpu(context: Context) returns (r: array?<byte>)
      requires Valid() && Coherent()
      modifies StagingMemory(), data
      ensures textureStaging == null ==> r == null && (data != null ==> data[..] == old(data[..]))
      ensures textureStaging != null ==> textureStaging.memory[..] == texture.memory[..]
      ensures textureStaging != null && !context.mapSucceeds ==> r == null && data[..] == old(data[..])
      ensures textureStaging != null && context.mapSucceeds ==>
        r == data && data[..] == Gather(texture.memory[..], Rows(), RowBytes(), textureStaging.rowPitch)
    {
      if textureStaging == null {
        return null;
      }
      CopyResource(textureStaging, texture);
      var desc := textureStaging.desc;
      if !context.mapSucceeds {
        return null;
      }
      CopyRowsOut(data, textureStaging.memory, desc.height * channels, desc.width * elementSize, textureStaging.rowPitch);
      return data;
    }

    /**
     * Copies the packed bytes at `src` into the rows of the staging texture,
     * then the staging texture into the texture; nothing without a staging
     * texture, with a null `src` or when Map fails.
     */
    method ToGpu(context: Context, src: array?<byte>)
      requires Valid() && Coherent()
      requires src != null && textureStaging != null ==> LogicalSize() <= src.Length && src !in DeviceMemory()
      modifies DeviceMemory()
      ensures textureStaging == null || src == null || !context.mapSucceeds ==> unchanged(DeviceMemory())
      ensures textureStaging != null && src != null && context.mapSucceeds ==>
        && textureStaging.memory[..]
           == Scatter(src[..LogicalSize()], old(textureStaging.memory[..]), Rows(), RowBytes(), textureStaging.rowPitch)
        && texture.memory[..] == textureStaging.memory[..]
    {
      if textureStaging == null {
        return;
      }
      if src == null {
        return;
      }
      var desc := textureStaging.desc;
      if !context.mapSucceeds {
        return;
      }
      CopyRowsIn(textureStaging.memory, src, desc.height * channels, desc.width * elementSize, textureStaging.rowPitch);
      CopyResource(texture, textureStaging);
    }

    /** Fills the texture with one byte value: to_gpu of a temporary buffer of the logical size. */
    method ToGpuFillByte(context: Context, clearVal: byte)
      requires Valid() && Coherent()
      modifies DeviceMemory()
      ensures textureStaging == null || !context.mapSucceeds ==> unchanged(DeviceMemory())
      ensures textureStaging != null && context.mapSucceeds ==>
        && textureStaging.memory[..]
           == Scatter(Replicate(clearVal, LogicalSize()), old(textureStaging.memory[..]), Rows(), RowBytes(), textureStaging.rowPitch)
        && texture.memory[..] == textureStaging.memory[..]
    {
      ghost var staged := if textureStaging == null then [] else textureStaging.memory[..];
      var bytes := ByteFill(clearVal, LogicalSize());
      assert textureStaging != null ==> textureStaging.memory[..] == staged;
      ToGpu(context, bytes);
      if textureStaging != null && context.mapSucceeds {
        assert bytes[..LogicalSize()] == bytes[..];
        assert textureStaging.memory[..] == Scatter(bytes[..LogicalSize()], staged, Rows(), RowBytes(), textureStaging.rowPitch);
      }
    }

    /**
     * Fills the texture with one 32-bit value: (n + 3) / 4 words of it, whose
     * little-endian bytes to_gpu reads; only the first n bytes are copied.
     */
    method ToGpuFillWord(context: Context, clearVal: word)
      requires Valid() && Coherent()
      modifies DeviceMemory()
      ensures textureStaging == null || !context.mapSucceeds ==> unchanged(DeviceMemory())
      ensures textureStaging != null && context.mapSucceeds ==>
        && 4 * ((LogicalSize() + 3) / 4) >= LogicalSize()
        && textureStaging.memory[..]
           == Scatter(WordImage(Replicate(clearVal, (LogicalSize() + 3) / 4))[..LogicalSize()],
                      old(textureStaging.memory[..]), Rows(), RowBytes(), textureStaging.rowPitch)
        && texture.memory[..] == textureStaging.memory[..]
    {
      ghost var staged := if textureStaging == null then [] else textureStaging.memory[..];
      var bytes := WordFill(clearVal, LogicalSize());
      assert textureStaging != null ==> textureStaging.memory[..] == staged;
      ToGpu(context, bytes);
      if textureStaging != null && context.mapSucceeds {
        assert textureStaging.memory[..] == Scatter(bytes[..LogicalSize()], staged, Rows(), RowBytes(), textureStaging.rowPitch);
      }
    }

    /**
     * Gives back every object a handle holds, each once, and nulls all five
     * pointers; the shape fields are kept.
     */
    method Release()
      requires Valid()
      modifies this`texture, this`textureUav, this`textureSrv, this`textureStaging, this`data, this`released
      ensures Valid() && Coherent()
      ensures texture == null && textureUav == null && textureSrv == null
      ensures textureStaging == null && data == null
      ensures released == old(released) + old(Held())
    {
      // IUnknown::Release or delete[] of each non-null handle; Owned() says
      // none of them was given back before.
      released := released + Held();
      textureSrv, textureUav, texture := null, null, null;
      textureStaging, data := null, null;
    }

    /** The destructor: release. */
    method Destroy()
      requires Valid()
      modifies this`texture, this`textureUav, this`textureSrv, this`textureStaging, this`data, this`released
      ensures texture == null && textureUav == null && textureSrv == null
      ensures textureStaging == null && data == null
      ensures released == old(released) + old(Held())
    {
      Release();
    }
  }
}
